=== FILE: README.md ===
# HATechLabs site behaviour, modelled in Dafny

The site's script (`assets/js/global.js`) is mostly DOM wiring. This project lifts out its
decision logic and proves properties of it. All state is immutable datatypes, and every
handler is a pure transition function:

- **Navigation**: the header's "scrolled" look and the mobile menu. The hamburger and the
  menu panel each carry an `active` class, and three kinds of click change them.
- **Testimonial slider**: a slide index over N > 0 slides, the track's `translateX`
  offset and one dot per slide. It is moved by the arrows, by clicking a dot and by the
  autoplay tick.
- **Portfolio filter**: which filter button is active, and which project cards are
  headed for display or for hiding.
- **Case-study modal**: a fixed table of case studies, the lookup that falls back to
  project "1", the content the modal renders, and the modal's open/scroll-lock state.
- **Contact form**: the field validator (trim, then three rules), the error display it
  writes, re-validation while typing, `validateForm`, and the submit handler up to the
  simulated network call. It also covers the name/value data collected, and the submit
  button's busy state.

Files: `wrappers.dfy` (Option), `text.dfy` (ECMAScript white space and `trim`),
`email.dfy` (the email pattern), `validation.dfy`, `contact_form.dfy`, `slider.dfy`,
`case_studies.dfy`, `portfolio.dfy`, `navigation.dfy`.

Modelling decisions:

- The validator's rules run as a sequence of overwrites (`Validation.Run`). This is
  proved equal to an independent definition: the verdict is the message of the *last*
  failing rule (`Validation.LastFailure`). In `validateField` (global.js:397-416) a later
  failing rule overwrites the message, so the last failing rule wins, and a required,
  empty SELECT reports "Please select an option".
- The regular expression `^[^\s@]+@[^\s@]+\.[^\s@]+$` is stated as a decomposition
  (`Email.MatchesPattern`). It is proved equivalent to the explicit test
  (`Email.IsValidEmail`): no white space, exactly one `@`, a non-empty local part, and a
  domain with a `.` that has a character on each side.
- White space is the ECMAScript WhiteSpace and LineTerminator set. `trim` strips exactly
  that set, and `\s` matches exactly that set.
- Attributes read with `getAttribute` may be missing (null). For `data-filter`,
  `data-category` and `data-project` this is modelled as `Option<string>`. The filter's
  strict equality makes a button and a card that both lack the attribute match.
- The script's `%` truncates toward zero, so it is written out as `Slider.JsRem`. For
  the indices that actually occur (non-negative), it agrees with Dafny's `%`.
- At start-up the script never sets the track transform. The model records offset 0,
  which is `-0*100`.
- Each entry of the rendered results list starts with the three characters U+00E2,
  U+0153 and U+201C ("âœ“") and a space. The script file holds them that way: they are the
  UTF-8 bytes of a check mark (U+2713) read as single-byte text. The model uses the
  characters the script holds (`CaseStudies.CheckMark`).
- `validateForm` looks only at `[required]` inputs. So an optional email field holding a
  malformed address fails on blur, but it does not stop the form from being sent
  (`ContactForm.OptionalEmailDoesNotBlock`).

## Model

| member | source | states |
|---|---|---|
| Text.Trim | assets/js/global.js:391 | the trimmed value is empty iff the raw value is all white space; otherwise it starts and ends with a non-space character |
| Text.TrimIsSlice | assets/js/global.js:391 | trimming removes only white space, and only from the two ends |
| Text.TrimIdempotent | assets/js/global.js:391 | trimming twice equals trimming once |
| Text.CountOne | assets/js/global.js:405 | a character occurs exactly once iff it occurs at one position and at no other |
| Email.ValidEmailIffPattern | assets/js/global.js:405-406 | the explicit address test accepts exactly the strings the email regular expression matches |
| Email.Examples | assets/js/global.js:404-410 | `a@b.co` is a valid address; `not-an-email` is not |
| Validation.LastFailure | assets/js/global.js:397-416 | finds the last failing rule: -1 iff no rule fails, else a failing rule with none failing after it |
| Validation.RunLastFailureWins | assets/js/global.js:394-416 | running the rules in order gives the starting verdict when all pass, else the last failing rule's message |
| Validation.ValidateField | assets/js/global.js:390-416 | valid iff not (required and blank) and, for a non-blank email field, the trimmed value matches the pattern; each failure names its message |
| Validation.ValidIffNoMessage | assets/js/global.js:394-416 | a field is valid iff its message is empty |
| Validation.RequiredBlankField | assets/js/global.js:398-416 | a required blank field is invalid: "This field is required", or "Please select an option" for a SELECT |
| Validation.OptionalBlankField | assets/js/global.js:394-401 | a blank field that is not required is valid with an empty message |
| Validation.EmailField | assets/js/global.js:404-410 | a non-blank email field is valid iff its trimmed value is a valid address, else "Please enter a valid email address" |
| Validation.TrimInsensitive | assets/js/global.js:391 | the verdict depends on the value only through its trimmed form |
| ContactForm.Check | assets/js/global.js:418-428 | the error class is set iff the field is invalid, and the error span shows the verdict's message; this is also the `blur` handler (global.js:365-367) |
| ContactForm.TypeValue | assets/js/global.js:369-373 | typing sets the control's value; a control without an error keeps its display; a control with an error shows the message for the new value |
| ContactForm.RealTimeRevalidation | assets/js/global.js:362-374 | typing into a field that shows an error does what leaving it does, so the error clears once the value is valid; other fields are left alone |
| ContactForm.ClearErrors | assets/js/global.js:431-437 | every error span is emptied and every error class removed; fields unchanged |
| ContactForm.ClearThenCheck | assets/js/global.js:418-437 | clearing before validating does not change what a validated control then shows; clearing twice is clearing once |
| ContactForm.ValidateForm | assets/js/global.js:377-388 | true iff every required field is valid; every required field is validated and shows its verdict; other fields are untouched |
| ContactForm.Submit | assets/js/global.js:314-359 | blocked iff some required field is invalid; errors show exactly on the invalid required fields; a blocked submission builds no data and leaves the button alone; a sent one collects the form data, shows the button disabled as "Sending..." during the call and then restores its saved caption, enabled |
| ContactForm.FormData | assets/js/global.js:327-328 | an unnamed control contributes no entry (no empty key) |
| ContactForm.FormDataKeys | assets/js/global.js:327-328 | the collected data has one key per non-empty field name |
| ContactForm.FormDataLastWins | assets/js/global.js:327-328 | each key holds the raw value of the last field with that name |
| ContactForm.OptionalEmailDoesNotBlock | assets/js/global.js:377-388 | an optional email field with a malformed address is invalid yet does not block the form |
| Slider.JsRem | assets/js/global.js:171-176 | the script's remainder: for a non-negative operand it agrees with the mathematical one and lies in [0, n) |
| Slider.Init | assets/js/global.js:128-150 | no slider without a track or slides; otherwise slide 0 is current with dot 0 active |
| Slider.GoTo | assets/js/global.js:154-168 | jumping to an existing slide keeps the state valid: one active dot, at the new index, and offset -index*100 |
| Slider.Next | assets/js/global.js:170-173 | moves one slide forward, wrapping from the last to the first, keeping the state valid |
| Slider.Prev | assets/js/global.js:175-178 | moves one slide back, wrapping from the first to the last, keeping the state valid |
| Slider.PrevUndoesNext | assets/js/global.js:170-178 | a previous step undoes a next step, and a next step undoes a previous step |
| Slider.OneActiveDot | assets/js/global.js:160-168 | in a valid state exactly one dot is active, the current slide's |
| Slider.ReplayKeepsValid | assets/js/global.js:140-193 | any sequence of arrow clicks, dot clicks and autoplay ticks keeps the index in range, one dot active and the offset -index*100 |
| Slider.NextNIndex | assets/js/global.js:170-173 | n <= N forward steps move the index n places, wrapping at most once |
| Slider.FullRotation | assets/js/global.js:170-173 | N forward steps return the slider to its starting state |
| Portfolio.Click | assets/js/global.js:206-229 | exactly the clicked button is active; each card is targeted for display iff the filter is "all" or equals its category, otherwise for hiding |
| Portfolio.ClickLeavesOneActive | assets/js/global.js:209-211 | after a click the number of active buttons is one |
| Portfolio.AllTargetsEveryCard | assets/js/global.js:217-222 | the "all" filter targets every card for display |
| Portfolio.CategoryTargetsItsOwn | assets/js/global.js:214-229 | any other filter targets exactly the cards of that category for display, and the rest for hiding |
| Portfolio.ClickIdempotent | assets/js/global.js:206-229 | clicking the same button twice gives the same state as once |
| Portfolio.ClickIgnoresHistory | assets/js/global.js:209-211 | a click's outcome does not depend on which buttons were active before |
| Portfolio.InitModal | assets/js/global.js:199-259 | the modal's handlers exist iff the page has a filter button, the modal and its body; the modal starts closed with scrolling unlocked |
| Portfolio.ModalStep | assets/js/global.js:199-259 | on an unwired page nothing changes; otherwise opening loads the project's content and locks scrolling, and the close button or overlay, when present, unlocks and hides; Escape does nothing |
| Portfolio.ModalStaysInSync | assets/js/global.js:240-258 | the modal is open exactly when scrolling is locked, through any sequence of events |
| CaseStudies.Table | assets/js/global.js:264-282 | the table holds exactly projects "1" and "2" |
| CaseStudies.Lookup | assets/js/global.js:284 | a known id gives its record; any other id, or none, gives project "1"'s record |
| CaseStudies.RenderKeepsLists | assets/js/global.js:296-304 | the rendered results (check marks removed) and technology tags equal the record's lists, in order and in full |
| CaseStudies.Load | assets/js/global.js:284-306 | the modal shows the looked-up record's title, description, challenge and solution, each result prefixed by the check mark in order, and its technologies as tags |
| CaseStudies.UnknownIdShowsFirst | assets/js/global.js:284 | an unknown or missing id renders the same content as project "1" |
| Navigation.Step | assets/js/global.js:26-56 | a scroll changes only "scrolled", setting it iff scrollY > 50; clicks leave it alone, and on a page without the hamburger button they change nothing; an in-sync menu stays in sync |
| Navigation.MenuEvents | assets/js/global.js:34-56 | a hamburger click flips both flags; a nav link or an outside click closes both; any other click inside the menu changes nothing |
| Navigation.StaysInSync | assets/js/global.js:34-56 | hamburger and menu flags that start equal stay equal through any events |
| Navigation.ScrolledFollowsLastScroll | assets/js/global.js:26-32 | after the last scroll event, "scrolled" reflects that event's position, whatever clicks follow |

## Left out

- Autoplay timing: `setInterval` and `clearInterval` on hover are not modelled. A tick is
  an event that calls `nextSlide`. Whether hover enter/leave can stack several intervals
  is a question of timer scheduling.
- Reveal-on-scroll and counter triggering are left out, because they depend on
  IntersectionObserver callback timing.
- Counter animation is left out. It is floating-point accumulation driven by
  `requestAnimationFrame`.
- Magnetic buttons and parallax are left out. Both are floating-point pixel arithmetic on
  bounding rectangles and scroll offsets.
- Smooth anchor scrolling and the injected `<style>` element are left out; they are
  presentation only.
- The card fade timings are left out (10 ms and 300 ms). A click records each card's
  target (shown or hidden), not the intermediate opacity and scale.
- Portfolio.Click: the 300 ms timer that hides a card is never cancelled. A card hidden
  by one filter and then targeted for display by "all" (or its own category) within 300 ms
  still ends with `display: none`. The model records targets only, so it does not show
  this race.
- From the form submission, the model leaves out: the 1500 ms simulated call,
  `console.log`, the `alert` in the unreachable `catch`, `form.reset()` (default values
  live in the page markup) and the 5000 ms success message.
- The HTML markup and inline styles of the modal body are left out. The model keeps the
  rendered texts and lists.
- Navigation.Step: a click inside both the hamburger and a nav link is handled as if the
  hamburger sat inside the link: toggle first, then close, so the menu ends closed. If a
  link sat inside the hamburger, bubbling would run the link's handler first and the
  menu would end open. The model does not cover that nesting.
- ContactForm.Submit: the submit button is always present. In a form without one, the
  script throws at `submitBtn.innerHTML` (global.js:331-334) after building the data, so
  nothing is sent and no success message appears. The model does not cover that case.
- ContactForm.Check: the error span is found as `field.parentElement.querySelector('.form-error')`
  (global.js:419). The model gives each control its own span. Controls that share a parent
  share one span in the page, and the last one validated decides its text.
- Slider.Init: the dots are collected with `dotsContainer.querySelectorAll('.slider-dot')`
  (global.js:152). The model has one dot per slide, so it assumes the markup has no dots
  of its own in the container; any such dot would also be collected and toggled.
- FormData is modelled over the form's `.form-input` controls only. Other controls, and
  the browser's rules for disabled or unchecked controls, are not modelled.
- Missing page elements are not modelled where the script dereferences them without a
  check: `navbar`, `navMenu`, the dots container and the contact form's submit button
  are assumed present. The modal's
  guards (the filter buttons, the modal and its body, the optional close button and
  overlay) are modelled by `Portfolio.InitModal`.
- Lookup quirks of the language are not modelled: `caseStudies[projectId]` hitting an
  inherited property of the object, and `parseInt` producing NaN.
- `scrollY` is modelled as a real number. The browser's floating-point
  value is not modelled.

=== FILE: case_studies.dfy ===
/**
 * The case-study content behind the portfolio modal: a fixed table of records
 * keyed by project id, a lookup that falls back to project "1", and the
 * structured content the modal body is filled with.
 */
module CaseStudies {
  import opened Wrappers

  datatype CaseStudy = CaseStudy(
    title: string,
    description: string,
    challenge: string,
    solution: string,
    results: seq<string>,
    technologies: seq<string>)

  const FallbackId := "1"

  /** The records, keyed by the `data-project` value of the button that opens them. */
  const Banking: CaseStudy := CaseStudy(
        "NextGen Banking Platform",
        "Complete digital transformation of legacy banking systems",
        "The client needed to modernize their 20-year-old banking infrastructure while maintaining 100% uptime.",
        "We implemented a phased migration strategy using microservices architecture on AWS, with zero-downtime deployment.",
        ["500K+ active users", "99.99% uptime achieved", "40% cost reduction", "60% faster transaction processing"],
        ["AWS", "React", "Node.js", "PostgreSQL", "Kubernetes", "Redis"])
  const Retail: CaseStudy := CaseStudy(
        "SmartRetail AI Platform",
        "AI-powered e-commerce transformation",
        "Low conversion rates and poor personalization led to lost revenue opportunities.",
        "Deployed machine learning models for personalized recommendations and dynamic pricing.",
        ["35% conversion increase", "2M+ monthly orders", "$50M+ revenue impact", "92% customer satisfaction"],
        ["Python", "TensorFlow", "Vue.js", "MongoDB", "Apache Kafka", "Docker"])

  function Table(): (t: map<string, CaseStudy>)
    ensures t.Keys == {"1", "2"}
  {
    map["1" := Banking, "2" := Retail]
  }

  /** The record for a known project id; any other id, or a button without the
      attribute, gets the record of project "1". */
  function Lookup(id: Option<string>): (r: CaseStudy)
    ensures id.Some? && id.value in Table() ==> r == Table()[id.value]
    ensures id.None? || id.value !in Table() ==> r == Table()[FallbackId]
    ensures r in Table().Values
  {
    var t := Table();
    var key := if id.Some? && id.value in t then id.value else FallbackId;
    assert key in t;
    t[key]
  }

  /** Text in front of every entry of the results list: the three characters the
      script holds there (the UTF-8 bytes of a check mark read as single-byte
      text) and a space. */
  const CheckMark := "\U{00E2}\U{0153}\U{201C} "

  /** What the modal body shows: headings' texts and the two lists, one list
      entry per element. */
  datatype View = View(
    title: string,
    description: string,
    challenge: string,
    solution: string,
    resultItems: seq<string>,
    techTags: seq<string>)

  function ResultItems(results: seq<string>): (items: seq<string>)
    ensures |items| == |results|
    ensures forall k :: 0 <= k < |results| ==> items[k] == CheckMark + results[k]
  {
    seq(|results|, k requires 0 <= k < |results| => CheckMark + results[k])
  }

  /** The results list with its check marks removed. */
  function Unmark(items: seq<string>): (results: seq<string>)
    requires forall k :: 0 <= k < |items| ==> |items[k]| >= |CheckMark|
  {
    seq(|items|, k requires 0 <= k < |items| => items[k][|CheckMark|..])
  }

  function Render(study: CaseStudy): View {
    View(study.title, study.description, study.challenge, study.solution,
         ResultItems(study.results), study.technologies)
  }

  /** The rendered lists keep every element of the record, in order: removing the
      check marks gives back the record's results, and the technology tags are
      the record's technologies. */
  lemma RenderKeepsLists(study: CaseStudy)
    ensures |Render(study).resultItems| == |study.results|
    ensures forall k :: 0 <= k < |study.results| ==> |Render(study).resultItems[k]| >= |CheckMark|
    ensures Unmark(Render(study).resultItems) == study.results
    ensures Render(study).techTags == study.technologies
  {
  }

  /** `loadCaseStudy`: look the id up and render the record. */
  function Load(id: Option<string>): (v: View)
    ensures v.title == Lookup(id).title
    ensures v.description == Lookup(id).description
    ensures v.challenge == Lookup(id).challenge && v.solution == Lookup(id).solution
    ensures |v.resultItems| == |Lookup(id).results|
    ensures forall k :: 0 <= k < |v.resultItems| ==> v.resultItems[k] == CheckMark + Lookup(id).results[k]
    ensures v.techTags == Lookup(id).technologies
  {
    Render(Lookup(id))
  }

  /** An unknown id shows the same content as project "1". */
  lemma UnknownIdShowsFirst(id: string)
    requires id != "1" && id != "2"
    ensures Load(Some(id)) == Load(Some(FallbackId))
    ensures Load(None) == Load(Some(FallbackId))
  {
  }
}

=== FILE: contact_form.dfy ===
/**
 * The contact form: the visible error state of each input, real-time
 * re-validation, the whole-form check run on submit, the name/value data the
 * submit handler collects, and the submit button's busy state.
 */
module ContactForm {
  import opened Wrappers
  import opened Text
  import opened Validation

  /** A `.form-input` control together with what the validator writes back: the
      `error` class and the text of the `.form-error` span next to it, if any. */
  datatype Input = Input(field: Field, hasError: bool, errorSpan: Option<string>)

  /** `validateField` with its display effect, which is also what leaving a
      control (`blur`) does: the error class is set iff the field is invalid, and
      the span (when present) shows the verdict's message, which is empty for a
      valid field. */
  function Check(inp: Input): (r: Input)
    ensures r.field == inp.field
    ensures r.hasError <==> !ValidateField(inp.field).isValid
    ensures r.errorSpan.Some? <==> inp.errorSpan.Some?
    ensures r.errorSpan.Some? ==> r.errorSpan.value == ValidateField(inp.field).errorMsg
  {
    var v := ValidateField(inp.field);
    if v.isValid then
      Input(inp.field, false, if inp.errorSpan.Some? then Some("") else None)
    else
      Input(inp.field, true, if inp.errorSpan.Some? then Some(v.errorMsg) else None)
  }

  /** Typing a new value: the control is re-validated only when it already shows
      an error; otherwise its display is left as it was. */
  function TypeValue(inp: Input, value: string): (r: Input)
    ensures r.field == inp.field.(value := value)
    ensures r.errorSpan.Some? <==> inp.errorSpan.Some?
    ensures !inp.hasError ==> !r.hasError && r.errorSpan == inp.errorSpan
    ensures inp.hasError && inp.errorSpan.Some? ==>
      r.errorSpan.value == ValidateField(r.field).errorMsg
  {
    var edited := inp.(field := inp.field.(value := value));
    if inp.hasError then Check(edited) else edited
  }

  /** Once a control shows an error, every keystroke re-validates it exactly as
      leaving the control would, so the error disappears as soon as the value
      becomes valid; a control without an error keeps its display unchanged while
      the user types. */
  lemma RealTimeRevalidation(inp: Input, value: string)
    ensures TypeValue(inp, value).field.value == value
    ensures inp.hasError ==> TypeValue(inp, value) == Check(inp.(field := inp.field.(value := value)))
    ensures inp.hasError ==>
      (TypeValue(inp, value).hasError <==> !ValidateField(inp.field.(value := value)).isValid)
    ensures !inp.hasError ==>
      !TypeValue(inp, value).hasError && TypeValue(inp, value).errorSpan == inp.errorSpan
  {
  }

  /** `clearFormErrors`: every span is emptied and every error class removed. */
  function ClearErrors(inputs: seq<Input>): (r: seq<Input>)
    ensures |r| == |inputs|
    ensures forall k :: 0 <= k < |r| ==>
      && r[k].field == inputs[k].field
      && !r[k].hasError
      && r[k].errorSpan == (if inputs[k].errorSpan.Some? then Some("") else None)
  {
    seq(|inputs|, k requires 0 <= k < |inputs| =>
      Input(inputs[k].field, false, if inputs[k].errorSpan.Some? then Some("") else None))
  }

  /** Clearing first makes no difference to a control that is then validated:
      its display afterwards depends only on its field. Clearing twice is
      clearing once. */
  lemma ClearThenCheck(inputs: seq<Input>)
    ensures forall k :: 0 <= k < |inputs| ==> Check(ClearErrors(inputs)[k]) == Check(inputs[k])
    ensures ClearErrors(ClearErrors(inputs)) == ClearErrors(inputs)
  {
  }

  /** Every required control passes the validator. */
  predicate AllRequiredValid(inputs: seq<Input>) {
    forall k :: 0 <= k < |inputs| && inputs[k].field.required ==> ValidateField(inputs[k].field).isValid
  }

  /** `validateForm`: every required control is validated, with no early exit, so
      each of them shows its own verdict; the result is true iff all of them pass.
      Controls that are not required are not looked at. */
  method ValidateForm(inputs: seq<Input>) returns (ok: bool, shown: seq<Input>)
    ensures ok <==> AllRequiredValid(inputs)
    ensures |shown| == |inputs|
    ensures forall k :: 0 <= k < |inputs| ==>
      shown[k] == (if inputs[k].field.required then Check(inputs[k]) else inputs[k])
  {
    ok := true;
    shown := [];
    var i := 0;
    while i < |inputs|
      invariant 0 <= i <= |inputs|
      invariant |shown| == i
      invariant forall k :: 0 <= k < i ==>
        shown[k] == (if inputs[k].field.required then Check(inputs[k]) else inputs[k])
      invariant ok <==> forall k :: 0 <= k < i && inputs[k].field.required ==> ValidateField(inputs[k].field).isValid
    {
      var inp := inputs[i];
      if inp.field.required {
        var checked := Check(inp);
        if checked.hasError {
          ok := false;
        }
        shown := shown + [checked];
      } else {
        shown := shown + [inp];
      }
      i := i + 1;
    }
  }

  /** Some control in `fields` has the given name. */
  predicate Named(fields: seq<Field>, name: string) {
    exists k :: 0 <= k < |fields| && fields[k].name == name
  }

  /** Control `k` is the last one with its name. */
  predicate LastOfName(fields: seq<Field>, k: int) {
    0 <= k < |fields| && forall j :: k < j < |fields| ==> fields[j].name != fields[k].name
  }

  /** `Object.fromEntries(new FormData(form))`: the controls are entered in order,
      each named control with its raw (untrimmed) value, a later entry replacing
      an earlier one of the same name. */
  function FormData(fields: seq<Field>): (data: map<string, string>)
    ensures "" !in data
  {
    if |fields| == 0 then map[]
    else
      var m := FormData(fields[..|fields| - 1]);
      var last := fields[|fields| - 1];
      if last.name == "" then m else m[last.name := last.value]
  }

  /** The data has one key per non-empty control name. */
  lemma {:induction false} FormDataKeys(fields: seq<Field>)
    ensures forall name :: name in FormData(fields) <==> name != "" && Named(fields, name)
  {
    if |fields| > 0 {
      var init := fields[..|fields| - 1];
      FormDataKeys(init);
      forall name ensures Named(fields, name) <==> Named(init, name) || fields[|fields| - 1].name == name {
        if Named(init, name) {
          var k :| 0 <= k < |init| && init[k].name == name;
          assert fields[k] == init[k];
        }
        if Named(fields, name) && fields[|fields| - 1].name != name {
          var k :| 0 <= k < |fields| && fields[k].name == name;
          assert init[k] == fields[k];
        }
      }
    }
  }

  /** Each key holds the value of the last control with that name. */
  lemma {:induction false} FormDataLastWins(fields: seq<Field>, k: int)
    requires LastOfName(fields, k) && fields[k].name != ""
    ensures fields[k].name in FormData(fields)
    ensures FormData(fields)[fields[k].name] == fields[k].value
  {
    var init := fields[..|fields| - 1];
    if k < |fields| - 1 {
      assert fields[k] == init[k];
      assert LastOfName(init, k);
      FormDataLastWins(init, k);
    }
  }

  function Fields(inputs: seq<Input>): (fs: seq<Field>)
    ensures |fs| == |inputs|
    ensures forall k :: 0 <= k < |inputs| ==> fs[k] == inputs[k].field
  {
    seq(|inputs|, k requires 0 <= k < |inputs| => inputs[k].field)
  }

  /** The submit button: its caption and whether it is disabled. */
  datatype SubmitButton = SubmitButton(caption: string, disabled: bool)

  const SendingLabel := "Sending..."

  /** What the submit handler does: either it stops after validation, with the
      errors on display and the button untouched, or it collects the data, shows
      the button busy while the (always successful) simulated call runs, and
      finally puts the button back. */
  datatype Submission =
    | Blocked(inputs: seq<Input>, button: SubmitButton)
    | Sent(inputs: seq<Input>, data: map<string, string>, busy: SubmitButton, button: SubmitButton)

  /** The submit handler: clear old errors, validate the form, and stop there
      unless every required control passes. A blocked submission shows an error
      exactly on the failing required controls, builds no data and leaves the
      button alone. A sent one collects every named control's value; during the
      call the button is disabled and reads "Sending...", and afterwards it has
      its saved caption back and is enabled, so an enabled button ends as it was. */
  method Submit(inputs: seq<Input>, button: SubmitButton) returns (r: Submission)
    ensures r.Blocked? <==> !AllRequiredValid(inputs)
    ensures |r.inputs| == |inputs|
    ensures forall k :: 0 <= k < |inputs| ==>
      && r.inputs[k].field == inputs[k].field
      && (r.inputs[k].hasError <==> inputs[k].field.required && !ValidateField(inputs[k].field).isValid)
      && r.inputs[k].errorSpan == (if inputs[k].errorSpan.Some? then
           Some(if inputs[k].field.required then ValidateField(inputs[k].field).errorMsg else "")
         else None)
    ensures r.Blocked? ==> r.button == button
    ensures r.Sent? ==> r.data == FormData(Fields(inputs))
    ensures r.Sent? ==> r.busy == SubmitButton(SendingLabel, true)
    ensures r.Sent? ==> r.button == button.(disabled := false)
    ensures !button.disabled ==> r.button == button
  {
    var cleared := ClearErrors(inputs);
    var ok, shown := ValidateForm(cleared);
    assert AllRequiredValid(cleared) <==> AllRequiredValid(inputs) by {
      assert forall k :: 0 <= k < |inputs| ==> cleared[k].field == inputs[k].field;
    }
    if !ok {
      return Blocked(shown, button);
    }
    assert Fields(cleared) == Fields(inputs);
    var data := FormData(Fields(inputs));
    var originalText := button.caption;
    var busy := button.(caption := SendingLabel, disabled := true);
    var restored := busy.(caption := originalText, disabled := false);
    r := Sent(shown, data, busy, restored);
  }

  /** Only required controls are checked on submit: an optional email control
      holding something that is not an address fails on blur, yet does not stop
      the form from being sent. */
  lemma OptionalEmailDoesNotBlock()
    ensures var inp := Input(Field("email", "x", "email", false, false), false, None);
      && !ValidateField(inp.field).isValid
      && AllRequiredValid([inp])
  {
    assert Trim("x") == "x";
  }
}

=== FILE: email.dfy ===
/**
 * The email rule of the contact form. The script tests a trimmed value against
 * the regular expression `^[^\s@]+@[^\s@]+\.[^\s@]+$`. `MatchesPattern` states what
 * that expression accepts; `IsValidEmail` is the same test written as an explicit
 * string predicate, and `ValidEmailIffPattern` proves the two agree.
 */
module Email {
  import opened Text

  /** The character class `[^\s@]`. */
  predicate IsAddressChar(c: char) {
    !IsSpace(c) && c != '@'
  }

  /** `s` splits as local `@` middle `.` tail, each part one or more `[^\s@]`
      characters (the `.` is itself such a character). */
  ghost predicate MatchesPattern(s: string) {
    exists at, dot ::
      && 0 < at && at + 1 < dot && dot + 1 < |s|
      && s[at] == '@' && s[dot] == '.'
      && forall k :: 0 <= k < |s| && k != at ==> IsAddressChar(s[k])
  }

  /** A `.` with at least one character before it and one after it. */
  predicate HasInnerDot(d: string) {
    exists k :: 0 < k < |d| - 1 && d[k] == '.'
  }

  /** No white space, exactly one `@`, a non-empty local part, and a domain
      holding a `.` with a character on each side. */
  predicate IsValidEmail(s: string) {
    && NoSpace(s)
    && Count(s, '@') == 1
    && IndexOf(s, '@') > 0
    && HasInnerDot(s[IndexOf(s, '@') + 1..])
  }

  lemma ValidEmailMatches(s: string)
    requires IsValidEmail(s)
    ensures MatchesPattern(s)
  {
    var at := IndexOf(s, '@');
    var d := s[at + 1..];
    var k :| 0 < k < |d| - 1 && d[k] == '.';
    var dot := at + 1 + k;
    assert s[dot] == '.';
    CountOne(s, '@', at);
    assert forall m :: 0 <= m < |s| && m != at ==> IsAddressChar(s[m]);
  }

  lemma MatchIsValidEmail(s: string)
    requires MatchesPattern(s)
    ensures IsValidEmail(s)
  {
    var at, dot :|
      && 0 < at && at + 1 < dot && dot + 1 < |s|
      && s[at] == '@' && s[dot] == '.'
      && forall k :: 0 <= k < |s| && k != at ==> IsAddressChar(s[k]);
    assert NoSpace(s);
    CountOne(s, '@', at);
    assert IndexOf(s, '@') == at;
    var d := s[at + 1..];
    assert d[dot - at - 1] == '.';
  }

  /** The explicit predicate accepts exactly the strings the pattern matches. */
  lemma ValidEmailIffPattern(s: string)
    ensures IsValidEmail(s) <==> MatchesPattern(s)
  {
    if IsValidEmail(s) {
      ValidEmailMatches(s);
    }
    if MatchesPattern(s) {
      MatchIsValidEmail(s);
    }
  }

  /** Two examples: a short well-formed address passes; a word without `@` fails. */
  lemma Examples()
    ensures IsValidEmail("a@b.co")
    ensures !IsValidEmail("not-an-email")
  {
    var s := "a@b.co";
    assert IndexOf(s, '@') == 1;
    assert s[2..][1] == '.';
    assert '@' !in "not-an-email";
  }
}

=== FILE: navigation.dfy ===
/**
 * The site header: the "scrolled" look past a scroll threshold, and the mobile
 * menu whose hamburger button and menu panel carry an `active` class together.
 */
module Navigation {

  const ScrollThreshold: real := 50.0

  /** `wired` says whether the page has a hamburger button, without which no menu
      handler is installed. */
  datatype Nav = Nav(wired: bool, hamburgerActive: bool, menuActive: bool, scrolled: bool)

  /** Where a click lands: inside the hamburger button, on a `.nav-link`, and/or
      inside the menu panel. */
  datatype ClickTarget = ClickTarget(inHamburger: bool, onNavLink: bool, inMenu: bool)

  datatype NavEvent = Scroll(scrollY: real) | Click(target: ClickTarget)

  /** The header is styled as scrolled iff the page is scrolled past 50 pixels. */
  predicate IsScrolled(scrollY: real) {
    scrollY > ScrollThreshold
  }

  /** The hamburger and the menu agree on whether the menu is open. */
  predicate InSync(n: Nav) {
    n.hamburgerActive == n.menuActive
  }

  function Toggle(n: Nav): Nav {
    n.(hamburgerActive := !n.hamburgerActive, menuActive := !n.menuActive)
  }

  function Close(n: Nav): Nav {
    n.(hamburgerActive := false, menuActive := false)
  }

  /** One event. A click runs the hamburger's handler (if the click is inside it),
      then a nav link's handler (if it is on one), and then the document's
      handler, which closes the menu when the click is outside both the hamburger
      and the menu. For a click inside both the hamburger and a link, this is the
      bubbling order only when the hamburger sits inside the link. Without a
      hamburger no click handler exists. */
  function Step(n: Nav, e: NavEvent): (r: Nav)
    ensures e.Scroll? ==> r == n.(scrolled := IsScrolled(e.scrollY))
    ensures e.Click? && !n.wired ==> r == n
    ensures r.wired == n.wired
    ensures e.Click? ==> r.scrolled == n.scrolled
    ensures InSync(n) ==> InSync(r)
  {
    match e
    case Scroll(y) => n.(scrolled := IsScrolled(y))
    case Click(t) =>
      if !n.wired then n
      else
        var afterHamburger := if t.inHamburger then Toggle(n) else n;
        var afterLink := if t.onNavLink then Close(afterHamburger) else afterHamburger;
        if !t.inHamburger && !t.inMenu then Close(afterLink) else afterLink
  }

  /** The menu events one by one, for a page with a hamburger:
      a click on the hamburger flips both, a nav link or a click outside closes
      both, and any other click inside the menu leaves them as they are. */
  lemma MenuEvents(n: Nav)
    requires n.wired
    ensures var r := Step(n, Click(ClickTarget(true, false, false)));
      r.hamburgerActive == !n.hamburgerActive && r.menuActive == !n.menuActive
    ensures forall inMenu: bool :: var r := Step(n, Click(ClickTarget(false, true, inMenu)));
      !r.hamburgerActive && !r.menuActive
    ensures var r := Step(n, Click(ClickTarget(false, false, false)));
      !r.hamburgerActive && !r.menuActive
    ensures Step(n, Click(ClickTarget(false, false, true))) == n
  {
  }

  function Replay(n: Nav, events: seq<NavEvent>): Nav
    decreases |events|
  {
    if |events| == 0 then n else Replay(Step(n, events[0]), events[1..])
  }

  /** Starting in step, the hamburger and the menu stay in step through any
      sequence of scrolls and clicks. */
  lemma {:induction false} StaysInSync(n: Nav, events: seq<NavEvent>)
    requires InSync(n)
    ensures InSync(Replay(n, events))
    decreases |events|
  {
    if |events| > 0 {
      StaysInSync(Step(n, events[0]), events[1..]);
    }
  }

  /** After the last scroll event the header's look matches that scroll position,
      whatever clicks came after it. */
  lemma {:induction false} ScrolledFollowsLastScroll(n: Nav, events: seq<NavEvent>, y: real, clicks: seq<NavEvent>)
    requires forall k :: 0 <= k < |clicks| ==> clicks[k].Click?
    ensures Replay(n, events + [Scroll(y)] + clicks).scrolled == IsScrolled(y)
  {
    ReplayAppend(n, events, [Scroll(y)] + clicks);
    assert events + [Scroll(y)] + clicks == events + ([Scroll(y)] + clicks);
    var m := Replay(n, events);
    assert ([Scroll(y)] + clicks)[1..] == clicks;
    ClicksKeepScrolled(Step(m, Scroll(y)), clicks);
  }

  lemma {:induction false} ReplayAppend(n: Nav, a: seq<NavEvent>, b: seq<NavEvent>)
    ensures Replay(n, a + b) == Replay(Replay(n, a), b)
    decreases |a|
  {
    if |a| > 0 {
      assert (a + b)[1..] == a[1..] + b;
      ReplayAppend(Step(n, a[0]), a[1..], b);
    } else {
      assert a + b == b;
    }
  }

  lemma {:induction false} ClicksKeepScrolled(n: Nav, clicks: seq<NavEvent>)
    requires forall k :: 0 <= k < |clicks| ==> clicks[k].Click?
    ensures Replay(n, clicks).scrolled == n.scrolled
    decreases |clicks|
  {
    if |clicks| > 0 {
      assert forall k :: 0 <= k < |clicks[1..]| ==> clicks[1..][k] == clicks[k + 1];
      ClicksKeepScrolled(Step(n, clicks[0]), clicks[1..]);
    }
  }
}

=== FILE: portfolio.dfy ===
/**
 * The portfolio page: filter buttons that pick which project cards are shown,
 * and the case-study modal those cards open.
 */
module Portfolio {
  import opened Wrappers
  import CaseStudies

  /** A `.filter-btn`: its `data-filter` value (absent when the attribute is
      missing) and whether it carries the `active` class. */
  datatype FilterButton = FilterButton(filter: Option<string>, active: bool)

  /** Where a card is headed after a filter click: faded in and displayed, or
      faded out and then removed from the layout. */
  datatype Target = Show | Hide

  /** The outcome of a filter click: the buttons' new states and, for each card,
      where it is headed. */
  datatype Filtered = Filtered(buttons: seq<FilterButton>, targets: seq<Target>)

  /** A card is shown iff the filter is "all" or equals the card's category.
      Strict equality on possibly-missing attributes: a button and a card that
      both lack the attribute match. */
  predicate Matches(filter: Option<string>, category: Option<string>) {
    filter == Some("all") || category == filter
  }

  /** The click handler of button `clicked`: afterwards that button, and no other,
      is active; every card (given by its `data-category`) is headed for display
      iff it matches the button's filter, and for hiding otherwise. */
  function Click(buttons: seq<FilterButton>, clicked: nat, categories: seq<Option<string>>): (r: Filtered)
    requires clicked < |buttons|
    ensures |r.buttons| == |buttons|
    ensures forall k :: 0 <= k < |buttons| ==>
      r.buttons[k].filter == buttons[k].filter && (r.buttons[k].active <==> k == clicked)
    ensures |r.targets| == |categories|
    ensures forall k :: 0 <= k < |categories| ==>
      (r.targets[k] == Show <==> Matches(buttons[clicked].filter, categories[k]))
  {
    var filter := buttons[clicked].filter;
    var cleared := seq(|buttons|, k requires 0 <= k < |buttons| => buttons[k].(active := false));
    Filtered(
      cleared[clicked := cleared[clicked].(active := true)],
      seq(|categories|, k requires 0 <= k < |categories| =>
        if filter == Some("all") || categories[k] == filter then Show else Hide))
  }

  function ActiveButtons(buttons: seq<FilterButton>): (n: nat)
    ensures n <= |buttons|
  {
    if |buttons| == 0 then 0 else (if buttons[0].active then 1 else 0) + ActiveButtons(buttons[1..])
  }

  /** When exactly the button at `i` is active, there is exactly one active button. */
  lemma {:induction false} OnlyOneActive(buttons: seq<FilterButton>, i: int)
    requires forall k :: 0 <= k < |buttons| ==> (buttons[k].active <==> k == i)
    ensures ActiveButtons(buttons) == (if 0 <= i < |buttons| then 1 else 0)
  {
    if |buttons| > 0 {
      var rest := buttons[1..];
      assert forall k :: 0 <= k < |rest| ==> rest[k] == buttons[k + 1];
      OnlyOneActive(rest, i - 1);
    }
  }

  /** After any filter click exactly one button is active: the clicked one. */
  lemma ClickLeavesOneActive(buttons: seq<FilterButton>, clicked: nat, categories: seq<Option<string>>)
    requires clicked < |buttons|
    ensures ActiveButtons(Click(buttons, clicked, categories).buttons) == 1
    ensures Click(buttons, clicked, categories).buttons[clicked].active
  {
    OnlyOneActive(Click(buttons, clicked, categories).buttons, clicked);
  }

  /** The "all" filter targets every card for display. */
  lemma AllTargetsEveryCard(buttons: seq<FilterButton>, clicked: nat, categories: seq<Option<string>>)
    requires clicked < |buttons| && buttons[clicked].filter == Some("all")
    ensures forall k :: 0 <= k < |categories| ==> Click(buttons, clicked, categories).targets[k] == Show
  {
  }

  /** Any other filter `x` targets exactly the cards of category `x` for display. */
  lemma CategoryTargetsItsOwn(buttons: seq<FilterButton>, clicked: nat, categories: seq<Option<string>>, x: string)
    requires clicked < |buttons| && buttons[clicked].filter == Some(x) && x != "all"
    ensures forall k :: 0 <= k < |categories| ==>
      (Click(buttons, clicked, categories).targets[k] == Show <==> categories[k] == Some(x))
  {
  }

  /** Clicking the same button again changes nothing. */
  lemma ClickIdempotent(buttons: seq<FilterButton>, clicked: nat, categories: seq<Option<string>>)
    requires clicked < |buttons|
    ensures Click(Click(buttons, clicked, categories).buttons, clicked, categories)
         == Click(buttons, clicked, categories)
  {
  }

  /** The outcome of a click does not depend on which buttons were active before. */
  lemma ClickIgnoresHistory(buttons: seq<FilterButton>, other: seq<FilterButton>, clicked: nat, categories: seq<Option<string>>)
    requires clicked < |buttons| == |other|
    requires forall k :: 0 <= k < |buttons| ==> buttons[k].filter == other[k].filter
    ensures Click(buttons, clicked, categories) == Click(other, clicked, categories)
  {
  }

  /** Which modal handlers the page installs. The "view case study" buttons are
      wired only when there is at least one filter button and both the modal and
      its body exist; the close control and the overlay are optional on top. */
  datatype ModalWiring = ModalWiring(wired: bool, hasClose: bool, hasOverlay: bool)

  /** The case-study modal: which handlers exist, whether it is open (`active`),
      whether page scrolling is locked (`overflow: hidden` on the body), and what
      its body shows. */
  datatype Modal = Modal(wiring: ModalWiring, active: bool, scrollLocked: bool, body: Option<CaseStudies.View>)

  /** The page as loaded: the modal is closed and scrolling is free. */
  function InitModal(filterButtons: nat, hasModal: bool, hasModalBody: bool, hasClose: bool, hasOverlay: bool): (m: Modal)
    ensures m.wiring.wired <==> filterButtons > 0 && hasModal && hasModalBody
    ensures m.wiring.wired ==> m.wiring.hasClose == hasClose && m.wiring.hasOverlay == hasOverlay
    ensures !m.active && !m.scrollLocked
  {
    var wired := filterButtons > 0 && hasModal && hasModalBody;
    Modal(ModalWiring(wired, wired && hasClose, wired && hasOverlay), false, false, None)
  }

  /** The events the modal could react to. The Escape key has no handler. */
  datatype ModalEvent = ViewCaseStudy(id: Option<string>) | CloseClick | OverlayClick | EscapeKey

  /** The modal is open exactly when page scrolling is locked. */
  predicate InSync(m: Modal) {
    m.active <==> m.scrollLocked
  }

  /** On a wired page, opening loads the project's content and locks scrolling,
      and a close control that exists unlocks scrolling and hides the modal,
      leaving its content in place. Events without a handler change nothing:
      everything on an unwired page, a missing close control or overlay, and
      Escape. */
  function ModalStep(m: Modal, e: ModalEvent): (r: Modal)
    ensures InSync(m) ==> InSync(r)
    ensures r.wiring == m.wiring
    ensures !m.wiring.wired ==> r == m
    ensures m.wiring.wired && e.ViewCaseStudy? ==> r.active && r.scrollLocked && r.body == Some(CaseStudies.Load(e.id))
    ensures m.wiring.wired && ((e.CloseClick? && m.wiring.hasClose) || (e.OverlayClick? && m.wiring.hasOverlay)) ==>
      !r.active && !r.scrollLocked && r.body == m.body
    ensures (e.CloseClick? && !m.wiring.hasClose) || (e.OverlayClick? && !m.wiring.hasOverlay) ==> r == m
    ensures e.EscapeKey? ==> r == m
  {
    if !m.wiring.wired then m
    else
      match e
      case ViewCaseStudy(id) => m.(active := true, scrollLocked := true, body := Some(CaseStudies.Load(id)))
      case CloseClick => if m.wiring.hasClose then m.(active := false, scrollLocked := false) else m
      case OverlayClick => if m.wiring.hasOverlay then m.(active := false, scrollLocked := false) else m
      case EscapeKey => m
  }

  function ModalReplay(m: Modal, events: seq<ModalEvent>): Modal
    decreases |events|
  {
    if |events| == 0 then m else ModalReplay(ModalStep(m, events[0]), events[1..])
  }

  /** The modal and the scroll lock, in step when the page loads, stay in step through any
      sequence of opens and closes. */
  lemma {:induction false} ModalStaysInSync(m: Modal, events: seq<ModalEvent>)
    requires InSync(m)
    ensures InSync(ModalReplay(m, events))
    ensures ModalReplay(m, events).wiring == m.wiring
    decreases |events|
  {
    if |events| > 0 {
      ModalStaysInSync(ModalStep(m, events[0]), events[1..]);
    }
  }
}

=== FILE: slider.dfy ===
/**
 * The testimonial slider: the current slide index over a fixed number of slides,
 * the track's horizontal offset (in percent) and the row of dots, exactly one of
 * which is marked active.
 */
module Slider {
  import opened Wrappers

  /** `offset` is the percentage in the track's `translateX(...)`; `dots[k]` says
      whether dot `k` carries the `active` class. */
  datatype Slider = Slider(index: int, count: nat, offset: int, dots: seq<bool>)

  /** The state the handlers keep: the index names a slide, there is one dot per
      slide, the active dot is the current one and the track shows it. */
  predicate Valid(s: Slider) {
    && 0 < s.count
    && 0 <= s.index < s.count
    && |s.dots| == s.count
    && (forall k :: 0 <= k < |s.dots| ==> (s.dots[k] <==> k == s.index))
    && s.offset == -s.index * 100
  }

  /** The remainder operator `%` of the script, which truncates toward zero (so a
      negative left operand gives a non-positive remainder). */
  function JsRem(a: int, n: int): (r: int)
    requires n > 0
    ensures a >= 0 ==> 0 <= r < n && r == a % n
    ensures a < 0 ==> -n < r <= 0
  {
    if a >= 0 then a % n else -((-a) % n)
  }

  /** A positive multiple of `c` is at least `c`. */
  lemma MultipleAtLeast(a: int, c: int)
    requires a >= 1 && c > 0
    ensures a * c >= c
  {
  }

  /** The remainder of `x = q*c + r` with `0 <= r < c` is `r`. */
  lemma RemOfDecomposition(x: int, c: int, q: int, r: int)
    requires c > 0 && 0 <= r < c && x == q * c + r
    ensures x % c == r
  {
    var q', r' := x / c, x % c;
    assert x == q' * c + r';
    assert (q' - q) * c == r - r' by {
      assert (q' - q) * c == q' * c - q * c;
    }
    if q' > q {
      MultipleAtLeast(q' - q, c);
    } else if q' < q {
      MultipleAtLeast(q - q', c);
    }
  }

  /** One more step wraps the remainder around at `c`. */
  lemma RemSucc(x: int, c: int)
    requires c > 0
    ensures (x + 1) % c == (if x % c == c - 1 then 0 else x % c + 1)
  {
    var q, r := x / c, x % c;
    if r == c - 1 {
      RemOfDecomposition(x + 1, c, q + 1, 0);
    } else {
      RemOfDecomposition(x + 1, c, q, r + 1);
    }
  }

  /** The dots after `updateDots`: the one at `index` is active, all others not. */
  function Dots(n: nat, index: int): (d: seq<bool>)
    ensures |d| == n
    ensures forall k :: 0 <= k < n ==> (d[k] <==> k == index)
  {
    seq(n, k => k == index)
  }

  /** Initialisation: without a track or without slides there is no slider;
      otherwise slide 0 is current, dot 0 is the active one and the track sits at
      its unshifted position. */
  function Init(hasTrack: bool, count: nat): (r: Option<Slider>)
    ensures r.Some? <==> hasTrack && count > 0
    ensures r.Some? ==> Valid(r.value) && r.value.index == 0 && r.value.count == count
  {
    if !hasTrack || count == 0 then None else Some(Slider(0, count, 0, Dots(count, 0)))
  }

  /** `goToSlide(i)`: the index becomes `i`, the track moves to `-i*100` percent and
      the existing dots are re-marked. */
  function GoTo(s: Slider, i: int): (r: Slider)
    ensures Valid(s) && 0 <= i < s.count ==> Valid(r) && r.index == i
    ensures r.count == s.count && |r.dots| == |s.dots|
  {
    Slider(i, s.count, -i * 100, Dots(|s.dots|, i))
  }

  /** The index `nextSlide` computes, for a current slide `i` of `c`. */
  lemma ForwardRem(i: int, c: int)
    requires c > 0
    ensures 0 <= i < c ==> JsRem(i + 1, c) == (if i == c - 1 then 0 else i + 1)
  {
    if 0 <= i < c {
      RemSucc(i, c);
      RemOfDecomposition(i, c, 0, i);
    }
  }

  /** The index `prevSlide` computes, for a current slide `i` of `c`. */
  lemma BackRem(i: int, c: int)
    requires c > 0
    ensures 0 <= i < c ==> JsRem(i - 1 + c, c) == (if i == 0 then c - 1 else i - 1)
  {
    if 0 <= i < c {
      if i == 0 {
        RemOfDecomposition(c - 1, c, 0, c - 1);
      } else {
        RemOfDecomposition(i - 1 + c, c, 1, i - 1);
      }
    }
  }

  /** `nextSlide`: one step forward, wrapping from the last slide to the first. */
  function Next(s: Slider): (r: Slider)
    requires s.count > 0
    ensures Valid(s) ==> Valid(r)
    ensures Valid(s) ==> r.index == (if s.index == s.count - 1 then 0 else s.index + 1)
    ensures r.count == s.count
  {
    ForwardRem(s.index, s.count);
    GoTo(s, JsRem(s.index + 1, s.count))
  }

  /** `prevSlide`: one step back, wrapping from the first slide to the last. */
  function Prev(s: Slider): (r: Slider)
    requires s.count > 0
    ensures Valid(s) ==> Valid(r)
    ensures Valid(s) ==> r.index == (if s.index == 0 then s.count - 1 else s.index - 1)
    ensures r.count == s.count
  {
    BackRem(s.index, s.count);
    GoTo(s, JsRem(s.index - 1 + s.count, s.count))
  }

  /** A valid state is determined by its slide count and index. */
  lemma ValidDetermined(s: Slider, t: Slider)
    requires Valid(s) && Valid(t) && s.count == t.count && s.index == t.index
    ensures s == t
  {
  }

  /** Going back undoes going forward, and going forward undoes going back. */
  lemma PrevUndoesNext(s: Slider)
    requires Valid(s)
    ensures Prev(Next(s)) == s
    ensures Next(Prev(s)) == s
  {
  }

  /** Number of active dots. */
  function ActiveDots(dots: seq<bool>): (n: nat)
    ensures n <= |dots|
  {
    if |dots| == 0 then 0 else (if dots[0] then 1 else 0) + ActiveDots(dots[1..])
  }

  lemma {:induction false} ActiveDotsOfDots(n: nat, index: int)
    ensures ActiveDots(Dots(n, index)) == (if 0 <= index < n then 1 else 0)
  {
    if n > 0 {
      var d := Dots(n, index);
      assert d[1..] == Dots(n - 1, index - 1);
      ActiveDotsOfDots(n - 1, index - 1);
    }
  }

  /** In a valid state exactly one dot is active, and it is the current slide's. */
  lemma OneActiveDot(s: Slider)
    requires Valid(s)
    ensures ActiveDots(s.dots) == 1
    ensures s.dots[s.index]
  {
    assert s.dots == Dots(s.count, s.index);
    ActiveDotsOfDots(s.count, s.index);
  }

  /** The events that move the slider: the two arrow buttons, a click on dot `i`,
      and the autoplay timer firing (which calls `nextSlide`). */
  datatype Event = NextClick | PrevClick | DotClick(i: int) | AutoplayTick

  /** A dot click names one of the dots that were created. */
  predicate WellFormed(e: Event, count: nat) {
    e.DotClick? ==> 0 <= e.i < count
  }

  function Step(s: Slider, e: Event): (r: Slider)
    requires s.count > 0
    ensures r.count == s.count
  {
    match e
    case NextClick => Next(s)
    case AutoplayTick => Next(s)
    case PrevClick => Prev(s)
    case DotClick(i) => GoTo(s, i)
  }

  function Replay(s: Slider, events: seq<Event>): (r: Slider)
    requires s.count > 0
    ensures r.count == s.count
    decreases |events|
  {
    if |events| == 0 then s else Replay(Step(s, events[0]), events[1..])
  }

  /** Whatever the sequence of clicks and timer ticks, the slider stays valid:
      the index stays within the slides, exactly one dot is active and it is the
      current one, and the track offset is `-index*100`. */
  lemma {:induction false} ReplayKeepsValid(s: Slider, events: seq<Event>)
    requires Valid(s)
    requires forall k :: 0 <= k < |events| ==> WellFormed(events[k], s.count)
    ensures Valid(Replay(s, events))
    ensures ActiveDots(Replay(s, events).dots) == 1
    decreases |events|
  {
    if |events| == 0 {
      OneActiveDot(s);
    } else {
      assert WellFormed(events[0], s.count);
      var t := Step(s, events[0]);
      assert forall k :: 0 <= k < |events[1..]| ==> events[1..][k] == events[k + 1];
      ReplayKeepsValid(t, events[1..]);
    }
  }

  /** `n` forward steps. */
  function NextN(s: Slider, n: nat): (r: Slider)
    requires s.count > 0
    ensures r.count == s.count
  {
    if n == 0 then s else Next(NextN(s, n - 1))
  }

  /** Within one full turn, `n` forward steps move the index `n` places on,
      wrapping past the last slide at most once. */
  lemma {:induction false} NextNIndex(s: Slider, n: nat)
    requires Valid(s) && n <= s.count
    ensures Valid(NextN(s, n))
    ensures NextN(s, n).index == (if s.index + n < s.count then s.index + n else s.index + n - s.count)
  {
    if n > 0 {
      NextNIndex(s, n - 1);
    }
  }

  /** Advancing once per slide brings the slider back to where it started. */
  lemma FullRotation(s: Slider)
    requires Valid(s)
    ensures NextN(s, s.count) == s
  {
    NextNIndex(s, s.count);
    ValidDetermined(NextN(s, s.count), s);
  }
}

=== FILE: text.dfy ===
/**
 * Strings as the script sees them: ECMAScript white space, `String.prototype.trim`,
 * and small counting helpers used by the email rule.
 */
module Text {

  /** ECMAScript WhiteSpace and LineTerminator code points. `trim` strips exactly
      these, and the regular-expression class `\s` matches exactly these. */
  predicate IsSpace(c: char) {
    || c == '\t' || c == '\n' || c == '\U{000B}' || c == '\U{000C}' || c == '\r'
    || c == ' ' || c == '\U{00A0}' || c == '\U{1680}'
    || ('\U{2000}' <= c <= '\U{200A}')
    || c == '\U{2028}' || c == '\U{2029}' || c == '\U{202F}' || c == '\U{205F}'
    || c == '\U{3000}' || c == '\U{FEFF}'
  }

  predicate AllSpace(s: string) {
    forall k :: 0 <= k < |s| ==> IsSpace(s[k])
  }

  predicate NoSpace(s: string) {
    forall k :: 0 <= k < |s| ==> !IsSpace(s[k])
  }

  /** Number of white-space characters at the front of `s`. */
  function LeadingSpaces(s: string): (n: nat)
    ensures n <= |s|
    ensures forall k :: 0 <= k < n ==> IsSpace(s[k])
    ensures n < |s| ==> !IsSpace(s[n])
  {
    if |s| == 0 || !IsSpace(s[0]) then 0 else 1 + LeadingSpaces(s[1..])
  }

  /** Number of white-space characters at the back of `s`. */
  function TrailingSpaces(s: string): (n: nat)
    ensures n <= |s|
    ensures forall k :: |s| - n <= k < |s| ==> IsSpace(s[k])
    ensures n < |s| ==> !IsSpace(s[|s| - 1 - n])
  {
    if |s| == 0 || !IsSpace(s[|s| - 1]) then 0 else 1 + TrailingSpaces(s[..|s| - 1])
  }

  /** `String.prototype.trim`: the longest slice of `s` that neither starts nor
      ends with white space, obtained by dropping white space at both ends. */
  function Trim(s: string): (r: string)
    ensures r == "" <==> AllSpace(s)
    ensures r != "" ==> !IsSpace(r[0]) && !IsSpace(r[|r| - 1])
    ensures |r| <= |s|
  {
    var i := LeadingSpaces(s);
    if i == |s| then "" else s[i .. |s| - TrailingSpaces(s)]
  }

  /** Trimming only removes white space from the two ends: the result sits inside
      `s` at the first non-space position, with nothing but white space around it. */
  lemma TrimIsSlice(s: string)
    ensures LeadingSpaces(s) + |Trim(s)| <= |s|
    ensures Trim(s) == s[LeadingSpaces(s) .. LeadingSpaces(s) + |Trim(s)|]
    ensures AllSpace(s[..LeadingSpaces(s)])
    ensures AllSpace(s[LeadingSpaces(s) + |Trim(s)|..])
  {
  }

  /** Trimming twice is trimming once. */
  lemma TrimIdempotent(s: string)
    ensures Trim(Trim(s)) == Trim(s)
  {
  }

  /** Number of occurrences of `c` in `s`. */
  function Count(s: string, c: char): (n: nat)
    ensures n <= |s|
    ensures n == 0 <==> c !in s
  {
    if |s| == 0 then 0 else (if s[0] == c then 1 else 0) + Count(s[1..], c)
  }

  /** Position of the first occurrence of `c` in `s`. */
  function IndexOf(s: string, c: char): (i: nat)
    requires c in s
    ensures i < |s| && s[i] == c
    ensures forall k :: 0 <= k < i ==> s[k] != c
  {
    if s[0] == c then 0 else 1 + IndexOf(s[1..], c)
  }

  /** `c` occurs exactly once in `s` iff it occurs at some position and nowhere else. */
  lemma {:induction false} CountOne(s: string, c: char, i: nat)
    requires i < |s| && s[i] == c
    ensures Count(s, c) == 1 <==> forall k :: 0 <= k < |s| && s[k] == c ==> k == i
  {
    assert forall k :: 1 <= k < |s| ==> s[k] == s[1..][k - 1];
    if i == 0 {
      assert Count(s, c) == 1 + Count(s[1..], c);
    } else {
      CountOne(s[1..], c, i - 1);
      if s[0] == c {
        assert c in s[1..];
      }
    }
  }
}

=== FILE: validation.dfy ===
/**
 * The pure core of the contact form's field validator: the field's trimmed value
 * is put through three rules in order, and each failing rule overwrites the
 * verdict, so the last failing rule decides the message.
 */
module Validation {
  import opened Text
  import opened Email

  const RequiredMessage := "This field is required"
  const EmailMessage := "Please enter a valid email address"
  const SelectMessage := "Please select an option"

  /** What the validator reads from a form control: its `name`, raw `value`,
      `type` property, the `required` attribute, and whether its tag is SELECT. */
  datatype Field = Field(name: string, value: string, inputType: string, required: bool, isSelect: bool)

  datatype Verdict = Verdict(isValid: bool, errorMsg: string)

  /** One validation rule, already evaluated: whether it fails and what it says. */
  datatype Rule = Rule(fails: bool, message: string)

  /** A failing rule replaces the verdict; a passing one leaves it alone. */
  function Apply(v: Verdict, rule: Rule): Verdict {
    if rule.fails then Verdict(false, rule.message) else v
  }

  predicate NoneFail(rules: seq<Rule>) {
    forall k :: 0 <= k < |rules| ==> !rules[k].fails
  }

  /** Position of the last failing rule, or -1 when every rule passes. */
  function LastFailure(rules: seq<Rule>): (k: int)
    ensures -1 <= k < |rules|
    ensures k == -1 <==> NoneFail(rules)
    ensures k >= 0 ==> rules[k].fails && NoneFail(rules[k + 1..])
  {
    if |rules| == 0 then -1
    else if rules[|rules| - 1].fails then |rules| - 1
    else
      var init := rules[..|rules| - 1];
      var k := LastFailure(init);
      assert k >= 0 ==> rules[k + 1..] == init[k + 1..] + [rules[|rules| - 1]];
      k
  }

  /** The script's sequence of `if` statements: the rules run front to back over
      the verdict so far. */
  function Run(v: Verdict, rules: seq<Rule>): Verdict
    decreases |rules|
  {
    if |rules| == 0 then v else Run(Apply(v, rules[0]), rules[1..])
  }

  /** The position found by `LastFailure` is the only failing rule with no
      failing rule after it. */
  lemma LastFailureUnique(rules: seq<Rule>, k: int)
    requires 0 <= k < |rules| && rules[k].fails && NoneFail(rules[k + 1..])
    ensures LastFailure(rules) == k
  {
  }

  /** Running the rules in order yields the starting verdict when all pass, and
      otherwise the message of the last failing rule. */
  lemma {:induction false} RunLastFailureWins(v: Verdict, rules: seq<Rule>)
    ensures NoneFail(rules) ==> Run(v, rules) == v
    ensures !NoneFail(rules) ==> Run(v, rules) == Verdict(false, rules[LastFailure(rules)].message)
    decreases |rules|
  {
    if |rules| > 0 {
      var tail := rules[1..];
      RunLastFailureWins(Apply(v, rules[0]), tail);
      assert forall m :: 1 <= m < |rules| ==> rules[m] == tail[m - 1];
      if !NoneFail(tail) {
        var j := LastFailure(tail);
        assert rules[j + 2..] == tail[j + 1..];
        LastFailureUnique(rules, j + 1);
      } else if rules[0].fails {
        assert rules[1..] == tail;
        LastFailureUnique(rules, 0);
      }
    }
  }

  /** The three rules of the validator, in the order the script applies them. */
  function Rules(f: Field): seq<Rule> {
    var value := Trim(f.value);
    [ Rule(f.required && value == "", RequiredMessage),
      Rule(f.inputType == "email" && value != "" && !IsValidEmail(value), EmailMessage),
      Rule(f.isSelect && f.required && value == "", SelectMessage) ]
  }

  /** The field is valid iff it is not a required field whose value trims to
      nothing and, when it is an email field with a non-empty trimmed value, that
      value matches the email pattern. An invalid verdict names the rule that
      fired last. */
  function ValidateField(f: Field): (v: Verdict)
    ensures v.isValid <==>
      && !(f.required && AllSpace(f.value))
      && (f.inputType == "email" && !AllSpace(f.value) ==> MatchesPattern(Trim(f.value)))
    ensures v.isValid ==> v.errorMsg == ""
    ensures !v.isValid && f.required && AllSpace(f.value) ==>
      v.errorMsg == (if f.isSelect then SelectMessage else RequiredMessage)
    ensures !v.isValid && !(f.required && AllSpace(f.value)) ==> v.errorMsg == EmailMessage
  {
    ValidEmailIffPattern(Trim(f.value));
    RunLastFailureWins(Verdict(true, ""), Rules(f));
    Run(Verdict(true, ""), Rules(f))
  }

  /** An invalid verdict always carries a non-empty message, so the message alone
      tells whether the field passed. */
  lemma ValidIffNoMessage(f: Field)
    ensures ValidateField(f).isValid <==> ValidateField(f).errorMsg == ""
  {
  }

  /** A required field holding only white space (or nothing) fails with the
      required message, or with the selection message when it is a SELECT. */
  lemma RequiredBlankField(f: Field)
    requires f.required && AllSpace(f.value)
    ensures !ValidateField(f).isValid
    ensures !f.isSelect ==> ValidateField(f).errorMsg == RequiredMessage
    ensures f.isSelect ==> ValidateField(f).errorMsg == SelectMessage
  {
  }

  /** A blank field that is not required passes with an empty message. */
  lemma OptionalBlankField(f: Field)
    requires !f.required && AllSpace(f.value)
    ensures ValidateField(f) == Verdict(true, "")
  {
  }

  /** The email rule only looks at email fields with a non-empty trimmed value;
      such a field passes iff its trimmed value is a valid address. */
  lemma EmailField(f: Field)
    requires f.inputType == "email" && !AllSpace(f.value)
    ensures ValidateField(f).isValid <==> IsValidEmail(Trim(f.value))
    ensures !ValidateField(f).isValid ==> ValidateField(f).errorMsg == EmailMessage
  {
    ValidEmailIffPattern(Trim(f.value));
  }

  /** Validation depends on the value only through its trimmed form. */
  lemma TrimInsensitive(f: Field)
    ensures ValidateField(f.(value := Trim(f.value))) == ValidateField(f)
  {
    TrimIdempotent(f.value);
    assert Rules(f.(value := Trim(f.value))) == Rules(f);
  }
}

=== FILE: wrappers.dfy ===
/** Optional values: a DOM attribute that may be absent (`getAttribute` returning null). */
module Wrappers {

  datatype Option<+T> = None | Some(value: T)
}
